=== FILE: README.md ===
# MCP App Store directory — Dafny model

This project models the logic of a small directory of "MCP agents". The
application is a React front end with login-gated upvotes and comments. It
contains five pieces of logic, and the model covers each:

- **Directory** (`src/pages/Index.tsx`). The page filters the listing: an
  agent must carry every active tag and, for a non-empty query, its
  lower-cased name or description must contain the lower-cased query. The
  page also toggles tags in the active list and offers `ALL_TAGS`, the sorted
  and de-duplicated union of all agent tags.
- **Slug routing** (`src/pages/AgentDetails.tsx`, `src/pages/Index.tsx`).
  `slugify` lower-cases a name and turns each run of whitespace into one `-`.
  The directory links to `/agent/<slug>`. The details page resolves the
  route parameter back to an agent with `getAgentByName` and keys the
  agent's feedback by its slug.
- **Feedback panel** (`src/components/AgentFeedback.tsx`). Its state is an
  upvote counter, a `hasUpvoted` flag, a comment list and a draft. The
  upvote and comment handlers are guarded transitions. Each may send one
  request to the remote store, and the store's answer (success or error) is
  an input of the transition.
- **Deploy links** (`src/components/DeployDropdown.tsx`). The Replit and
  Hugging Face URLs are built with `encodeURIComponent`. It is modelled as
  UTF-8 percent-encoding under sections 2.1 and 2.3 of RFC 3986, with
  `!'()*` also left literal.
- **User menu avatar** (`src/components/UserMenu.tsx`). The fallback
  initials come from the email, else the metadata email, else the id. The
  alternative text is the email or `"User"`.

The agent list appears twice in the source, verbatim (`Index.tsx:13-60`,
`AgentDetails.tsx:13-59`). It is modelled once, as `Agents.Catalog`. Every
operation also takes the list as a parameter.

Modules, one per concern:

| file | module | role |
|---|---|---|
| wrappers.dfy | Wrappers | `Option`, for `undefined`/`null` |
| text.dfy | Text | ASCII case mapping, the `\s` class, `indexOf`/`includes`, string `replace`, `trim` |
| seqs.dfy | Seqs | `Array.prototype.filter` and subsequences |
| ordering.dfy | Ordering | default string `sort` order, insertion sort, `new Set` de-duplication |
| agents.dfy | Agents | the agent record and the static catalog |
| directory.dfy | Directory | `filteredAgents`, `toggleTag`, `ALL_TAGS` |
| routing.dfy | Routing | `slugify`, `getAgentByName`, agent links, feedback key |
| identity.dfy | Identity | the fields of the signed-in user that the core reads |
| feedback.dfy | Feedback | the feedback panel state machine |
| uri.dfy | Uri | `encodeURIComponent` and a byte-level percent-decoder |
| deploy.dfy | Deploy | the two deploy URL builders and the platform choice |
| usermenu.dfy | UserMenu | avatar initials, alternative text, rendering guard |

The feedback panel modelled here does not do the following:

- It only upserts a vote and never removes one.
- It updates local state only after the store answers.
- It has no busy flag.
- It starts from zero upvotes and no comments, and never loads existing
  ones.

## Model

| member | source | states |
|---|---|---|
| Text.ToLower | src/pages/Index.tsx:80-84 | `toLowerCase` keeps the length and maps every character to its lower-case form |
| Text.ToUpper | src/components/UserMenu.tsx:36-38 | `toUpperCase` keeps the length and maps every character to its upper-case form |
| Text.Contains | src/pages/Index.tsx:83-84 | `includes` holds exactly when the pattern occurs at some index of the text |
| Text.SpaceClass | src/pages/AgentDetails.tsx:9 | the `\s` class, also the set `trim` removes: on ASCII exactly tab, line feed, vertical tab, form feed, carriage return and space, plus the Unicode space separators, line and paragraph separators and U+FEFF; no whitespace character is a letter or `-` |
| Text.ReplaceFirst | src/components/DeployDropdown.tsx:11 | `replace` with a string pattern leaves a text without the pattern unchanged, and otherwise splices the replacement in at the first occurrence only |
| Text.ReplaceFirstAtStart | src/components/DeployDropdown.tsx:11 | `replace` with a string pattern removes the pattern from a string that begins with it, leaving exactly the rest |
| Text.ReplaceFirstAbsent | src/components/DeployDropdown.tsx:11 | `replace` leaves a string without the pattern unchanged |
| Text.IndexOf | src/components/DeployDropdown.tsx:11 | the first occurrence is found, no earlier index holds one, and "none" means no index holds one |
| Text.TrimIsSlice | src/components/AgentFeedback.tsx:43 | `trim` returns a contiguous slice, everything removed is whitespace, and the slice neither starts nor ends with whitespace |
| Text.TrimEmptyIff | src/components/AgentFeedback.tsx:36 | the draft is blank for `trim` exactly when it is all whitespace |
| Text.Trim | src/components/AgentFeedback.tsx:36-43 | `trim` never lengthens the text and what it returns neither starts nor ends with whitespace |
| Seqs.Filter | src/pages/Index.tsx:75-85 | `filter` keeps only elements meeting the predicate, in source order, each as often as the source has it |
| Seqs.FilterCharacterized | src/pages/Index.tsx:72-88 | any order-preserving selection that keeps every matching element with its multiplicity is the filter result, so nothing is added, reordered or dropped |
| Directory.ToggleTagRequirement | src/pages/Index.tsx:74-78 | an agent passes the tag stage after toggling a tag on exactly when it passed before and carries that tag, and after toggling a tag off exactly when it carries every other active tag |
| Directory.MatchesQuery | src/pages/Index.tsx:79-85 | the empty query is contained in every name, so skipping the stage for it loses nothing |
| Directory.MatchesQueryIgnoresCase | src/pages/Index.tsx:81-85 | a query and its lower-cased form select the same agents |
| Directory.ByTags | src/pages/Index.tsx:74-78 | the tag stage keeps exactly the agents carrying every active tag, in order, and passes everything when no tag is active |
| Directory.ByQuery | src/pages/Index.tsx:79-86 | for a non-empty query every kept agent's lower-cased name or description contains the lower-cased query, and all such agents are kept in order |
| Directory.FilterAgents | src/pages/Index.tsx:72-88 | with no tags and an empty query the whole list comes back in order; otherwise every result carries every active tag, matches a non-empty query, and the result is a subsequence keeping every selected agent |
| Directory.FilterAgentsIsOnePass | src/pages/Index.tsx:72-88 | the two-stage filter equals one order-preserving filter by the conjunction of both predicates |
| Directory.ToggleTag | src/pages/Index.tsx:90-96 | toggling flips membership: a present tag loses all its occurrences and the other tags keep their order and counts; an absent tag is appended at the end |
| Directory.ToggleTwiceRestores | src/pages/Index.tsx:90-96 | toggling an inactive tag twice restores the original active list |
| Directory.FlatTags | src/pages/Index.tsx:63 | `flatMap` yields exactly the tags some agent carries |
| Ordering.LessEq | src/pages/Index.tsx:64 | a prefix sorts no later than any extension of it, and strings differing in their first character compare by that character |
| Ordering.LessEqTotal | src/pages/Index.tsx:64 | any two strings are comparable |
| Ordering.LessEqAntisymmetric | src/pages/Index.tsx:64 | two strings each at most the other are equal |
| Ordering.LessEqTransitive | src/pages/Index.tsx:64 | the order is transitive |
| Ordering.Dedup | src/pages/Index.tsx:63 | building a `Set` keeps exactly the same values, each once |
| Ordering.Sort | src/pages/Index.tsx:64 | `sort` returns a permutation of its input that is in order |
| Directory.AllTags | src/pages/Index.tsx:62-64 | `ALL_TAGS` is strictly increasing, has no duplicates, and holds exactly the tags appearing on some agent |
| Ordering.StrictlySortedUnique | src/pages/Index.tsx:64 | two strictly increasing lists with the same elements are equal, so the contract of `ALL_TAGS` determines it |
| Directory.AllTagsUnique | src/pages/Index.tsx:62-64 | any strictly sorted list of exactly the used tags is `ALL_TAGS` |
| Directory.ListedTagsSorted | src/pages/Index.tsx:62-64 | the expected tag list is strictly increasing in code-point order |
| Directory.ListedTagsUsed | src/pages/Index.tsx:13-63 | every expected tag is carried by some listed agent |
| Directory.UsedTagsListed | src/pages/Index.tsx:13-63 | every tag a listed agent carries is in the expected list |
| Directory.CatalogTags | src/pages/Index.tsx:13-64 | for the listed agents the offered tags are Go, Node, Python, automation, dev tools, education, productivity, in that order |
| Routing.DashRuns | src/pages/AgentDetails.tsx:9 | the whitespace rewrite leaves no whitespace, never lengthens the text, is empty only for empty input, keeps a non-space first character and keeps lower-case text lower-case |
| Routing.DashRunsConcat | src/pages/AgentDetails.tsx:9 | a whitespace-free prefix is kept, the whitespace run after it becomes exactly one `-`, and the text after the run is rewritten the same way |
| Routing.DashRunsLeadingRun | src/pages/AgentDetails.tsx:9 | a leading run of whitespace becomes a single `-` |
| Routing.DashRunsKeepsHead | src/pages/AgentDetails.tsx:9 | a leading non-space character is kept in place |
| Routing.Slugify | src/pages/AgentDetails.tsx:8-10 | a slug is lower-case, contains no whitespace and is never longer than the name |
| Routing.SlugifySpaceless | src/pages/AgentDetails.tsx:8-10 | a name without whitespace is only lower-cased |
| Routing.SlugifyRun | src/pages/AgentDetails.tsx:8-10 | splitting a name at its first whitespace run, the slug is the lower-cased prefix, one `-`, and the slug of the rest; with `Routing.SlugifySpaceless` this determines every slug |
| Routing.SlugShape | src/pages/AgentDetails.tsx:8-10 | a slug is lower-case and whitespace-free, is empty exactly for an empty name, and starts with the lower-cased initial of a name that starts with a non-space |
| Routing.DashRunsFixesSpaceless | src/pages/AgentDetails.tsx:9 | text without whitespace is unchanged by the whitespace rewrite |
| Routing.SlugifyIdempotent | src/pages/AgentDetails.tsx:8-10 | slugifying a slug changes nothing |
| Routing.FindFrom | src/pages/AgentDetails.tsx:63-66 | `find` over the agents' slugs returns the first position holding the key, and nothing exactly when no position holds it |
| Routing.GetAgentByName | src/pages/AgentDetails.tsx:61-67 | an absent or empty parameter finds nothing; a found agent is the first whose slug equals the lower-cased parameter; nothing is found exactly when no slug equals it |
| Routing.LookupIgnoresCase | src/pages/AgentDetails.tsx:65 | looking up a parameter and its lower-cased form gives the same answer |
| Routing.SlugRoundTrip | src/pages/AgentDetails.tsx:8-67 | when slugs are pairwise distinct, resolving a listed agent's slug returns that agent, provided its name is non-empty |
| Routing.AgentPath | src/pages/Index.tsx:124 | an agent's link starts with the `/agent/` route prefix |
| Routing.LinkRoundTrip | src/pages/Index.tsx:124 | the parameter after `/agent/` in an agent's link resolves back to that agent when slugs are distinct |
| Routing.FeedbackKey | src/pages/AgentDetails.tsx:171 | the feedback key is lower-case and whitespace-free, and empty exactly for an empty name |
| Routing.FeedbackKeyMatchesRoute | src/pages/AgentDetails.tsx:171 | the resolved agent's feedback is keyed by the lower-cased route parameter |
| Routing.DistinctInitialsDistinctSlugs | src/pages/AgentDetails.tsx:8-10 | names starting with non-space initials that differ after lower-casing get pairwise distinct slugs |
| Routing.CatalogInitials | src/pages/AgentDetails.tsx:13-59 | the five listed names start with G, O, C, V and S |
| Routing.CatalogSlugsDistinct | src/pages/AgentDetails.tsx:13-59 | the listed agents have pairwise distinct slugs |
| Routing.CatalogLinksResolve | src/pages/AgentDetails.tsx:61-67 | every listed agent's link resolves back to it |
| Feedback.Initial | src/components/AgentFeedback.tsx:17-20 | the panel starts with zero upvotes, no comments, an empty draft, and not upvoted, so the count agrees with the flag |
| Feedback.UpvoteDisablesButton | src/components/AgentFeedback.tsx:64 | the button is enabled only for a signed-in viewer who has not upvoted; an enabled click that succeeds disables it, a failed or signed-out click leaves it as it was, and a disabled button stays disabled |
| Feedback.Upvote | src/components/AgentFeedback.tsx:22-33 | no viewer: no request and no change. Otherwise a vote is upserted for the viewer's id. On success the count rises by exactly one and the flag is set; on error nothing changes. The count never falls, the flag never reverts, and the comments are untouched |
| Feedback.PostComment | src/components/AgentFeedback.tsx:35-55 | no viewer or a whitespace-only draft: no request and no change. Otherwise the store receives the non-empty trimmed draft. On error nothing changes. On success exactly one comment with the untrimmed draft and the viewer's email (or empty) is appended, earlier comments stay, and the draft is cleared |
| Feedback.EmailOrEmpty | src/components/AgentFeedback.tsx:49 | the comment's author is the viewer's email when present, and the empty text exactly when the email is missing or empty |
| Feedback.EditDraft | src/components/AgentFeedback.tsx:78 | typing replaces the draft and touches nothing else |
| Feedback.GatedRunKeepsCount | src/components/AgentFeedback.tsx:22-64 | while upvotes are clicked only with the button enabled, the count stays one when the flag is set and zero otherwise |
| Feedback.GatedRunCountsAtMostOne | src/components/AgentFeedback.tsx:17-64 | from the initial state, with upvotes clicked only while enabled and each completed before the next, the count never exceeds one |
| Feedback.RunIsMonotone | src/components/AgentFeedback.tsx:22-55 | along any sequence of completed actions the count never falls, the flag never reverts, and earlier comments stay in place at the front |
| Uri.Utf8 | src/components/DeployDropdown.tsx:11 | a character takes one byte below U+0080, two below U+0800, three below U+10000 and four above; the lead byte lies in the range its length prescribes and every later byte is a continuation byte in 0x80–0xBF |
| Uri.Utf8Decodes | src/components/DeployDropdown.tsx:11 | reading the bytes back as a UTF-8 sequence gives the character's code point |
| Uri.IsUnescaped | src/components/DeployDropdown.tsx:11-14 | the characters kept literally are ASCII, include every letter and digit, and include none of `% / ? # & =` or space |
| Uri.EncodeChar | src/components/DeployDropdown.tsx:11 | a character is kept literally exactly when it is unreserved; any other becomes three characters per UTF-8 byte, all `%` or hex digits, that percent-decode to exactly its UTF-8 bytes |
| Uri.Encode | src/components/DeployDropdown.tsx:11-14 | every output character is unreserved, `%` or a hex digit, so none of `/ ? # & =` appears |
| Uri.EncodeConcat | src/components/DeployDropdown.tsx:11-14 | the encoding of a concatenation is the concatenation of the encodings, so each character is encoded on its own as `Uri.EncodeChar` states |
| Uri.EncodeFixesExactlyUnescaped | src/components/DeployDropdown.tsx:11-14 | the encoding leaves a string unchanged exactly when all its characters are unreserved |
| Uri.DecodeEscapeHead | src/components/DeployDropdown.tsx:11-14 | one `%XY` escape decodes to the byte it was made from |
| Uri.DecodeEscapes | src/components/DeployDropdown.tsx:11-14 | percent-decoding a run of `%XY` escapes recovers the escaped bytes |
| Uri.DecodeEncode | src/components/DeployDropdown.tsx:11-14 | percent-decoding the encoding yields exactly the UTF-8 bytes of the input |
| Deploy.ReplitDeployUrl | src/components/DeployDropdown.tsx:10-11 | the URL is the Replit base followed by exactly the encoding of the repository URL with its first `https://github.com/` removed; that segment has no delimiter and decodes to the bytes of the path |
| Deploy.ReplitOnGithubUrl | src/components/DeployDropdown.tsx:10-11 | for `https://github.com/` followed by `p`, the segment is exactly the encoding of `p` |
| Deploy.ReplitOnOtherUrl | src/components/DeployDropdown.tsx:10-11 | a URL not containing `https://github.com/` is encoded whole |
| Deploy.HfDeployUrl | src/components/DeployDropdown.tsx:13-14 | the URL is the Hugging Face new-space base followed by exactly the encoding of the whole repository URL; that query value has no delimiter and decodes to the bytes of the URL |
| Deploy.DeployUrl | src/components/DeployDropdown.tsx:17-18 | the platform `"replit"` yields exactly the links with the Replit prefix, and every other platform the Hugging Face link; after the chosen base comes exactly the encoding that builder makes, a single component decoding to the repository text |
| Deploy.CatalogReplitUrls | src/components/DeployDropdown.tsx:10-11 | every listed repository is on GitHub, so its Replit segment is the encoded owner/name path |
| UserMenu.FirstUpper | src/components/UserMenu.tsx:36-37 | `?.[0]?.toUpperCase()` gives a one-character upper-cased value exactly when the string is present and non-empty |
| UserMenu.Prefix | src/components/UserMenu.tsx:38 | `slice(0, 2)` gives the first two characters, or the whole of a shorter id |
| UserMenu.Initials | src/components/UserMenu.tsx:35-38 | the initials are the upper-cased first email character, else that of the metadata email, else the upper-cased first two id characters; they are at most two characters and never lower-case |
| UserMenu.AvatarAlt | src/components/UserMenu.tsx:46 | the alternative text is the email whenever it is present, even when empty, and `"User"` otherwise |
| UserMenu.MenuAvatar | src/components/UserMenu.tsx:23 | the menu shows an avatar exactly when a user is signed in |
| UserMenu.EmptyEmailFallbacksDiffer | src/components/UserMenu.tsx:35-46 | with an empty email the alternative text is empty, while the initials fall through as if the email were missing |

## Left out

- The remote store calls (`upsert` and `insert` in `AgentFeedback.tsx`) are foreign calls. Only their outcome is modelled, as the `Outcome` input, and their request as the `Request` value.
- The authentication page (`Auth.tsx`), `signOut`, the toast and `navigate` in `UserMenu.tsx` are foreign calls or side effects.
- Asynchronous interleavings are not modelled. An example is two upvote clicks that both resolve before the flag is set. Every transition runs to completion before the next begins.
- Un-voting, optimistic rollback, a busy flag and loading existing votes or comments do not exist in the source, so they are not modelled.
- The comment id and timestamp (`Date.now()`, `new Date()`) are clock readings. They are opaque parameters of `Feedback.PostComment`.
- Case mapping is ASCII-only. `toLowerCase` and `toUpperCase` on other letters, including expansions such as `ß` to `SS`, are not modelled. This is why `UserMenu.Initials` proves at most two characters.
- UserMenu.Initials: JavaScript indexes and slices strings by UTF-16 code units. The model uses Unicode scalar values, so initials taken from a character outside the Basic Multilingual Plane differ.
- Ordering.Sort: the default `sort` compares UTF-16 code units, and the model compares scalar values. The two orders differ only between characters above U+FFFF and those in U+E000–U+FFFF.
- Ordering.LessEq: the default `sort` compares UTF-16 code units, and the model compares scalar values. The two orders differ only between characters above U+FFFF and those in U+E000–U+FFFF.
- UserMenu.FirstUpper: `?.[0]` takes the first UTF-16 code unit, and the model takes the first scalar value. They differ when the string starts with a character above U+FFFF.
- UserMenu.Prefix: `slice(0, 2)` counts UTF-16 code units, and the model counts scalar values. They differ when one of the first two characters is above U+FFFF.
- Text.ReplaceFirst: the replacement is inserted literally. JavaScript expands `$$`, `$&`, `` $` `` and `$'` in a replacement string, and this is not modelled. The only replacement the source passes is `""` (`DeployDropdown.tsx:11`), which has none of them.
- Uri.PercentDecode: it reads only the upper-case triplets the encoder writes and passes any other character through. `decodeURIComponent` also reads lower-case hexadecimal digits and throws on a malformed `%`; neither case arises for the encoder's output.
- Uri.Encode: JavaScript strings may contain lone surrogates, for which `encodeURIComponent` throws. Dafny characters cannot hold them, so the error path is absent. The inverse is proved down to UTF-8 bytes, and each character's bytes are proved to read back as its code point; a decoder from a byte string back to a whole string is not modelled.
- The route table and `ProtectedRoute` (`App.tsx`) are routing, and the router's own parameter decoding is not modelled. The link round trip is stated on the text after `/agent/`.
- JSX rendering and `window.open` are left out. So are the presentational components `TagFilter`, `SearchBar`, `McpAgentCard`, `GoogleIcon` and `Dashboard`, and the avatar image URL (`UserMenu.tsx:45`).

=== FILE: agents.dfy ===
/** The listing record of a directory entry and the static directory itself. */
module Agents {

  /** One listed agent; the optional demo-video and readme links are not used by the core. */
  datatype Agent = Agent(
    name: string,
    description: string,
    tags: seq<string>,
    stars: int,
    lastUpdated: string,
    author: string,
    github: string)

  /** The static directory shown by the index page and resolved by the details page. */
  const Catalog: seq<Agent> :=
    [
      Agent(
        name := "GitHub Issue Summarizer",
        description := "Summarizes GitHub issues and PRs with AI. Supports all public repos, instant summaries via MCP API.",
        tags := ["productivity", "automation", "Node"],
        stars := 118,
        lastUpdated := "2024-04-08",
        author := "alice",
        github := "https://github.com/alice/github-issue-summarizer-mcp"),
      Agent(
        name := "OpenAI Chat Proxy",
        description := "Wraps OpenAI GPT API as a compliant MCP agent for easy integration. Caching & auto-retry included.",
        tags := ["dev tools", "Python"],
        stars := 87,
        lastUpdated := "2024-04-09",
        author := "bob",
        github := "https://github.com/bob/openai-mcp-agent"),
      Agent(
        name := "Calendar Linker",
        description := "Integrates calendar events with MCP workflows, trigger workflows from meetings.",
        tags := ["automation", "productivity", "Go"],
        stars := 55,
        lastUpdated := "2024-03-31",
        author := "eve",
        github := "https://github.com/eve/calendar-linker-mcp"),
      Agent(
        name := "Voice Note Transcriber",
        description := "Transcribe voice notes and messages on the fly with high accuracy. MCP-compatible API.",
        tags := ["education", "automation", "Python"],
        stars := 66,
        lastUpdated := "2024-03-28",
        author := "charlie",
        github := "https://github.com/charlie/voice-transcribe-mcp"),
      Agent(
        name := "Slack Automator",
        description := "Automate Slack notifications with MCP triggers and custom workflows. Easy integration with Python.",
        tags := ["dev tools", "automation", "Python"],
        stars := 42,
        lastUpdated := "2024-04-03",
        author := "denise",
        github := "https://github.com/denise/slack-automator-mcp")
    ]
}

=== FILE: deploy.dfy ===
/** The deploy buttons of an agent's details page: one-click deploy links built from its repository URL. */
module Deploy {
  import opened Text
  import opened Uri
  import opened Agents

  const GithubPrefix := "https://github.com/"
  const ReplitBase := "https://replit.com/github/"
  const HfBase := "https://huggingface.co/new-space?template="

  /** Nothing after `base` in `url` is a path, query or fragment delimiter. */
  predicate SingleComponentAfter(url: string, base: string) {
    forall i :: |base| <= i < |url| ==> url[i] !in "/?#&="
  }

  /**
   `replitDeployUrl`: the Replit import address followed by the encoding of
   the repository URL with its first `https://github.com/` removed. The
   appended part stays a single path segment and decodes to the UTF-8
   bytes of that path.
   */
  function ReplitDeployUrl(github: string): (url: string)
    ensures |url| >= |ReplitBase| && url[..|ReplitBase|] == ReplitBase
    ensures SingleComponentAfter(url, ReplitBase)
    ensures PercentDecode(url[|ReplitBase|..]) == Utf8String(ReplaceFirst(github, GithubPrefix, ""))
    ensures url[|ReplitBase|..] == Encode(ReplaceFirst(github, GithubPrefix, ""))
  {
    var segment := Encode(ReplaceFirst(github, GithubPrefix, ""));
    DecodeEncode(ReplaceFirst(github, GithubPrefix, ""));
    assert (ReplitBase + segment)[|ReplitBase|..] == segment;
    ReplitBase + segment
  }

  /**
   `hfDeployUrl`: the Hugging Face new-space address whose `template`
   query value is the encoded repository URL; the value stays one query
   value and decodes to the UTF-8 bytes of the whole URL.
   */
  function HfDeployUrl(github: string): (url: string)
    ensures |url| >= |HfBase| && url[..|HfBase|] == HfBase
    ensures SingleComponentAfter(url, HfBase)
    ensures PercentDecode(url[|HfBase|..]) == Utf8String(github)
    ensures url[|HfBase|..] == Encode(github)
  {
    var value := Encode(github);
    DecodeEncode(github);
    assert (HfBase + value)[|HfBase|..] == value;
    HfBase + value
  }

  /** For a GitHub repository URL the Replit segment is the encoded owner/name path. */
  lemma ReplitOnGithubUrl(path: string)
    ensures ReplitDeployUrl(GithubPrefix + path) == ReplitBase + Encode(path)
  {
    ReplaceFirstAtStart(GithubPrefix, path);
  }

  /** A URL that does not contain the GitHub prefix is encoded whole. */
  lemma ReplitOnOtherUrl(github: string)
    requires !Contains(github, GithubPrefix)
    ensures ReplitDeployUrl(github) == ReplitBase + Encode(github)
  {
    ReplaceFirstAbsent(github, GithubPrefix, "");
  }

  predicate StartsWith(url: string, base: string) {
    |url| >= |base| && url[..|base|] == base
  }

  /** The two bases part at their ninth character, so no link starts with both. */
  lemma BasesDiffer()
    ensures |ReplitBase| > 8 && |HfBase| > 8 && ReplitBase[8] != HfBase[8]
  {
    assert ReplitBase[8] == 'r' && HfBase[8] == 'h';
  }

  /**
   `handleDeploy`: the platform `"replit"` opens the Replit link, any other
   the Hugging Face one; the two links are told apart by their prefix.
   */
  function DeployUrl(platform: string, github: string): (url: string)
    ensures platform == "replit" <==> StartsWith(url, ReplitBase)
    ensures platform != "replit" <==> StartsWith(url, HfBase)
    ensures platform == "replit" ==>
      PercentDecode(url[|ReplitBase|..]) == Utf8String(ReplaceFirst(github, GithubPrefix, ""))
    ensures platform != "replit" ==> PercentDecode(url[|HfBase|..]) == Utf8String(github)
    ensures platform == "replit" ==> url[|ReplitBase|..] == Encode(ReplaceFirst(github, GithubPrefix, ""))
    ensures platform != "replit" ==> url[|HfBase|..] == Encode(github)
    ensures SingleComponentAfter(url, if platform == "replit" then ReplitBase else HfBase)
  {
    if platform == "replit" then
      var url := ReplitDeployUrl(github);
      BasesDiffer();
      assert url[8] == ReplitBase[8];
      url
    else
      var url := HfDeployUrl(github);
      BasesDiffer();
      assert url[8] == HfBase[8];
      url
  }

  /** Every listed agent's repository is on GitHub, so its Replit segment is the encoded owner/name path. */
  lemma CatalogReplitUrls(i: nat)
    requires i < |Catalog|
    ensures StartsWith(Catalog[i].github, GithubPrefix)
    ensures ReplitDeployUrl(Catalog[i].github) == ReplitBase + Encode(Catalog[i].github[|GithubPrefix|..])
  {
    var g := Catalog[i].github;
    forall k | 0 <= k < |GithubPrefix| ensures g[k] == GithubPrefix[k] {
      assert Catalog[0].github[k] == Catalog[1].github[k] == Catalog[2].github[k]
          == Catalog[3].github[k] == Catalog[4].github[k] == GithubPrefix[k];
    }
    assert g[..|GithubPrefix|] == GithubPrefix;
    assert g == GithubPrefix + g[|GithubPrefix|..];
    ReplitOnGithubUrl(g[|GithubPrefix|..]);
  }
}

=== FILE: directory.dfy ===
/**
 The directory page: narrowing the listing by active tags and a search
 query, toggling a tag in the active list, and the list of tags offered
 for filtering.
 */
module Directory {
  import opened Text
  import opened Seqs
  import opened Ordering
  import opened Agents

  /** `activeTags.every(tag => agent.tags.includes(tag))`. */
  predicate CarriesAll(a: Agent, activeTags: seq<string>) {
    forall i :: 0 <= i < |activeTags| ==> activeTags[i] in a.tags
  }

  /** The lower-cased name or the lower-cased description contains the lower-cased query. */
  predicate MatchesQuery(a: Agent, search: string)
    ensures search == "" ==> MatchesQuery(a, search)
  {
    var lq := ToLower(search);
    assert search == "" ==> OccursAt(ToLower(a.name), lq, 0);
    Contains(ToLower(a.name), lq) || Contains(ToLower(a.description), lq)
  }

  /** The query is compared case-insensitively: it may be given in any case. */
  lemma MatchesQueryIgnoresCase(a: Agent, search: string)
    ensures MatchesQuery(a, search) <==> MatchesQuery(a, ToLower(search))
  {
    ToLowerIdempotent(search);
  }

  /** An agent the page shows for the given query and tags. */
  predicate Selected(a: Agent, search: string, activeTags: seq<string>) {
    CarriesAll(a, activeTags) && (search == "" || MatchesQuery(a, search))
  }

  /** The tag stage of `filteredAgents`: it runs only when some tag is active. */
  function ByTags(agents: seq<Agent>, activeTags: seq<string>): (r: seq<Agent>)
    ensures forall i :: 0 <= i < |r| ==> CarriesAll(r[i], activeTags)
    ensures IsSubsequence(r, agents)
    ensures forall a :: CarriesAll(a, activeTags) ==> multiset(r)[a] == multiset(agents)[a]
  {
    if |activeTags| > 0 then Filter(agents, a => CarriesAll(a, activeTags))
    else SubsequenceReflexive(agents); agents
  }

  /** The text stage of `filteredAgents`: it runs only when the query is non-empty. */
  function ByQuery(agents: seq<Agent>, search: string): (r: seq<Agent>)
    ensures search != "" ==> forall i :: 0 <= i < |r| ==> MatchesQuery(r[i], search)
    ensures IsSubsequence(r, agents)
    ensures forall a :: (search == "" || MatchesQuery(a, search)) ==> multiset(r)[a] == multiset(agents)[a]
  {
    if |search| > 0 then Filter(agents, a => MatchesQuery(a, search))
    else SubsequenceReflexive(agents); agents
  }

  /**
   `filteredAgents`: every agent shown carries every active tag and, for a
   non-empty query, matches it; the result is a subsequence of the listing
   that keeps every selected agent.
   */
  function FilterAgents(agents: seq<Agent>, search: string, activeTags: seq<string>): (r: seq<Agent>)
    ensures activeTags == [] && search == "" ==> r == agents
    ensures forall i :: 0 <= i < |r| ==> CarriesAll(r[i], activeTags)
    ensures search != "" ==> forall i :: 0 <= i < |r| ==> MatchesQuery(r[i], search)
    ensures IsSubsequence(r, agents)
    ensures forall a :: Selected(a, search, activeTags) ==> multiset(r)[a] == multiset(agents)[a]
  {
    var byTags := ByTags(agents, activeTags);
    var r := ByQuery(byTags, search);
    SubsequenceTransitive(r, byTags, agents);
    assert forall i :: 0 <= i < |r| ==> r[i] in multiset(byTags);
    r
  }

  /**
   The two-stage filter equals one order-preserving pass of the combined
   predicate over the listing.
   */
  lemma FilterAgentsIsOnePass(agents: seq<Agent>, search: string, activeTags: seq<string>)
    ensures FilterAgents(agents, search, activeTags)
         == Filter(agents, a => Selected(a, search, activeTags))
  {
    var r := FilterAgents(agents, search, activeTags);
    FilterCharacterized(agents, a => Selected(a, search, activeTags), r);
  }

  /** The predicate "differs from `tag`". */
  function Other(tag: string): string -> bool {
    t => t != tag
  }

  /** `toggleTag`: removes every occurrence of a present tag, appends an absent one. */
  function ToggleTag(curr: seq<string>, tag: string): (r: seq<string>)
    ensures tag in r <==> tag !in curr
    ensures tag in curr ==> IsSubsequence(r, curr)
    ensures tag in curr ==> forall t :: t != tag ==> multiset(r)[t] == multiset(curr)[t]
    ensures tag !in curr ==> r == curr + [tag]
  {
    if tag in curr then Filter(curr, Other(tag)) else curr + [tag]
  }

  /**
   Toggling a tag on adds exactly the requirement to carry it; toggling it
   off drops exactly that requirement and keeps the others.
   */
  lemma ToggleTagRequirement(a: Agent, curr: seq<string>, tag: string)
    ensures tag !in curr ==>
      (CarriesAll(a, ToggleTag(curr, tag)) <==> CarriesAll(a, curr) && tag in a.tags)
    ensures tag in curr ==>
      (CarriesAll(a, ToggleTag(curr, tag)) <==> forall t :: t in curr && t != tag ==> t in a.tags)
  {
    var r := ToggleTag(curr, tag);
    if tag in curr {
      forall t | t in curr && t != tag ensures t in r {
        assert multiset(r)[t] == multiset(curr)[t];
      }
      SubsequenceCounts(r, curr);
      forall t | t in r ensures t in curr && t != tag {
        assert t in multiset(r);
      }
    } else {
      assert forall i :: 0 <= i < |curr| ==> r[i] == curr[i];
      assert r[|curr|] == tag;
    }
  }

  /** Toggling an inactive tag on and off again restores the active list. */
  lemma ToggleTwiceRestores(curr: seq<string>, tag: string)
    requires tag !in curr
    ensures ToggleTag(ToggleTag(curr, tag), tag) == curr
  {
    FilterConcat(curr, [tag], Other(tag));
    FilterKeepsAll(curr, Other(tag));
  }

  /** Some listed agent carries tag `t`. */
  ghost predicate TagUsed(agents: seq<Agent>, t: string) {
    exists i :: 0 <= i < |agents| && t in agents[i].tags
  }

  /** `AGENTS.flatMap(agent => agent.tags)`. */
  function FlatTags(agents: seq<Agent>): (r: seq<string>)
    ensures forall t :: t in r <==> TagUsed(agents, t)
  {
    if |agents| == 0 then []
    else
      var rest := FlatTags(agents[1..]);
      assert forall t :: TagUsed(agents[1..], t) ==> TagUsed(agents, t) by {
        forall t | TagUsed(agents[1..], t) ensures TagUsed(agents, t) {
          var i :| 0 <= i < |agents[1..]| && t in agents[1..][i].tags;
          assert t in agents[i + 1].tags;
        }
      }
      agents[0].tags + rest
  }

  /** `ALL_TAGS`: the de-duplicated union of the agents' tags, sorted. */
  function AllTags(agents: seq<Agent>): (r: seq<string>)
    ensures StrictlySorted(r)
    ensures NoDuplicates(r)
    ensures forall t :: t in r <==> TagUsed(agents, t)
  {
    var d := Dedup(FlatTags(agents));
    var r := Sort(d);
    assert forall t :: t in r <==> t in multiset(r);
    assert forall t :: t in d <==> t in multiset(d);
    SortedDistinctIsStrict(r);
    r
  }

  /** The result of `AllTags` is the only strictly sorted listing of the used tags. */
  lemma AllTagsUnique(agents: seq<Agent>, tags: seq<string>)
    requires StrictlySorted(tags)
    requires forall t :: t in tags <==> TagUsed(agents, t)
    ensures AllTags(agents) == tags
  {
    StrictlySortedUnique(AllTags(agents), tags);
  }

  /** The tags the listed agents carry, in the order the directory shows them. */
  const ListedTags: seq<string> :=
    ["Go", "Node", "Python", "automation", "dev tools", "education", "productivity"]

  lemma ListedTagsSorted()
    ensures StrictlySorted(ListedTags)
  {
    forall i | 0 < i < |ListedTags| ensures Less(ListedTags[i - 1], ListedTags[i]) {
      assert ListedTags[i - 1][0] < ListedTags[i][0];
    }
  }

  /** Every listed tag is carried by some listed agent. */
  lemma ListedTagsUsed(t: string)
    requires t in ListedTags
    ensures TagUsed(Catalog, t)
  {
    var w := map["Go" := 2, "Node" := 0, "Python" := 1, "automation" := 0, "dev tools" := 1,
                 "education" := 3, "productivity" := 0];
    assert t in Catalog[w[t]].tags;
  }

  /** Every tag a listed agent carries is listed. */
  lemma UsedTagsListed(i: nat)
    requires i < |Catalog|
    ensures forall u :: u in Catalog[i].tags ==> u in ListedTags
  {
  }

  /** The tag buttons the directory offers for the listed agents, in order. */
  lemma CatalogTags()
    ensures AllTags(Catalog) == ListedTags
  {
    ListedTagsSorted();
    forall t ensures t in ListedTags <==> TagUsed(Catalog, t) {
      if t in ListedTags {
        ListedTagsUsed(t);
      }
      if TagUsed(Catalog, t) {
        var i :| 0 <= i < |Catalog| && t in Catalog[i].tags;
        UsedTagsListed(i);
      }
    }
    AllTagsUnique(Catalog, ListedTags);
  }
}

=== FILE: feedback.dfy ===
/**
 The feedback panel of an agent's details page: an upvote counter with a
 per-viewer flag and an append-only comment list with a draft. Each
 transition may issue one request to the remote store; the store's answer
 is an input to the transition.
 */
module Feedback {
  import opened Wrappers
  import opened Text
  import opened Identity

  /** A comment as the panel lists it. */
  datatype Comment = Comment(id: string, userEmail: string, content: string, createdAt: string)

  /** The panel's local state. */
  datatype State = State(upvotes: int, comments: seq<Comment>, draft: string, hasUpvoted: bool)

  /** What the panel asks the remote store to do. */
  datatype Request =
    | UpsertUpvote(agentId: string, userId: string)
    | InsertComment(agentId: string, userId: string, content: string)

  /** The store's answer: the `error` field of its reply is empty or set. */
  datatype Outcome = Success | Failure

  /** The state after a transition and the request it issued, if any. */
  datatype Step = Step(state: State, request: Option<Request>)

  /** The state when the panel is first shown: nothing is loaded from the store. */
  function Initial(): (s: State)
    ensures s.upvotes == 0 && !s.hasUpvoted
    ensures s.comments == [] && s.draft == ""
    ensures CountMatchesFlag(s)
  {
    State(0, [], "", false)
  }

  /** The upvote button is enabled: someone is signed in and has not upvoted yet. */
  predicate UpvoteEnabled(s: State, viewer: Option<User>) {
    viewer.Some? && !s.hasUpvoted
  }

  /**
   The button guards the handler: an enabled click that succeeds disables
   the button for that viewer, a failed or signed-out click leaves it as it
   was, and a disabled button stays disabled.
   */
  lemma UpvoteDisablesButton(s: State, agentId: string, viewer: Option<User>, outcome: Outcome)
    ensures UpvoteEnabled(s, viewer) && outcome.Success? ==>
      !UpvoteEnabled(Upvote(s, agentId, viewer, outcome).state, viewer)
    ensures outcome.Failure? || viewer.None? ==>
      (UpvoteEnabled(Upvote(s, agentId, viewer, outcome).state, viewer) <==> UpvoteEnabled(s, viewer))
    ensures !UpvoteEnabled(s, viewer) ==> !UpvoteEnabled(Upvote(s, agentId, viewer, outcome).state, viewer)
  {
  }

  /**
   `handleUpvote`: without a viewer nothing happens; otherwise the vote is
   upserted and, on success only, the counter rises by one and the flag is
   set. The handler itself does not consult the flag.
   */
  function Upvote(s: State, agentId: string, viewer: Option<User>, outcome: Outcome): (r: Step)
    ensures viewer.None? ==> r == Step(s, None)
    ensures viewer.Some? ==> r.request == Some(UpsertUpvote(agentId, viewer.value.id))
    ensures viewer.Some? && outcome.Success? ==> r.state.upvotes == s.upvotes + 1 && r.state.hasUpvoted
    ensures outcome.Failure? ==> r.state == s
    ensures r.state.upvotes >= s.upvotes && (s.hasUpvoted ==> r.state.hasUpvoted)
    ensures r.state.comments == s.comments && r.state.draft == s.draft
  {
    if viewer.None? then Step(s, None)
    else
      var next := if outcome.Success? then s.(upvotes := s.upvotes + 1, hasUpvoted := true) else s;
      Step(next, Some(UpsertUpvote(agentId, viewer.value.id)))
  }

  /** `user.email || ''`. */
  function EmailOrEmpty(u: User): (e: string)
    ensures u.email.Some? ==> e == u.email.value
    ensures e == "" <==> u.email.None? || u.email.value == ""
  {
    u.email.GetOr("")
  }

  /**
   `handleComment`: without a viewer or with a blank draft nothing happens;
   otherwise the trimmed draft is inserted and, on success only, the
   untrimmed draft is appended as a comment and the draft is cleared.
   `id` and `createdAt` stand for the clock readings the handler takes.
   */
  function PostComment(s: State, agentId: string, viewer: Option<User>, outcome: Outcome,
                       id: string, createdAt: string): (r: Step)
    ensures viewer.None? || AllSpace(s.draft) ==> r == Step(s, None)
    ensures viewer.Some? && !AllSpace(s.draft) ==>
      r.request == Some(InsertComment(agentId, viewer.value.id, Trim(s.draft)))
    ensures r.request.Some? ==> r.request.value.content != "" && r.request.value.content == Trim(s.draft)
    ensures outcome.Failure? ==> r.state == s
    ensures r.request.Some? && outcome.Success? ==>
      && |r.state.comments| == |s.comments| + 1
      && r.state.comments[..|s.comments|] == s.comments
      && r.state.comments[|s.comments|] == Comment(id, EmailOrEmpty(viewer.value), s.draft, createdAt)
      && r.state.draft == ""
    ensures r.state.upvotes == s.upvotes && r.state.hasUpvoted == s.hasUpvoted
  {
    TrimEmptyIff(s.draft);
    if viewer.None? || Trim(s.draft) == "" then Step(s, None)
    else
      var u := viewer.value;
      var next :=
        if outcome.Success? then
          s.(comments := s.comments + [Comment(id, EmailOrEmpty(u), s.draft, createdAt)], draft := "")
        else s;
      Step(next, Some(InsertComment(agentId, u.id, Trim(s.draft))))
  }

  /** Typing into the comment box replaces the draft. */
  function EditDraft(s: State, text: string): (r: State)
    ensures r.draft == text
    ensures r.upvotes == s.upvotes && r.hasUpvoted == s.hasUpvoted && r.comments == s.comments
  {
    s.(draft := text)
  }

  /** A user action on the panel, each completed before the next begins. */
  datatype Event =
    | ClickUpvote(viewer: Option<User>, outcome: Outcome)
    | ClickPost(viewer: Option<User>, outcome: Outcome, id: string, createdAt: string)
    | Type(text: string)

  function Apply(s: State, agentId: string, e: Event): State {
    match e
    case ClickUpvote(v, o) => Upvote(s, agentId, v, o).state
    case ClickPost(v, o, id, at) => PostComment(s, agentId, v, o, id, at).state
    case Type(text) => EditDraft(s, text)
  }

  /** The state after a sequence of completed events. */
  function Run(s: State, agentId: string, events: seq<Event>): State
    decreases |events|
  {
    if |events| == 0 then s else Run(Apply(s, agentId, events[0]), agentId, events[1..])
  }

  /** Every upvote click happens while the button is enabled. */
  predicate Gated(s: State, agentId: string, events: seq<Event>)
    decreases |events|
  {
    || |events| == 0
    || (&& (events[0].ClickUpvote? ==> UpvoteEnabled(s, events[0].viewer))
        && Gated(Apply(s, agentId, events[0]), agentId, events[1..]))
  }

  /** The counter is one exactly when the flag is set, zero otherwise. */
  predicate CountMatchesFlag(s: State) {
    s.upvotes == if s.hasUpvoted then 1 else 0
  }

  lemma {:induction false} GatedRunKeepsCount(s: State, agentId: string, events: seq<Event>)
    requires CountMatchesFlag(s) && Gated(s, agentId, events)
    ensures CountMatchesFlag(Run(s, agentId, events))
    decreases |events|
  {
    if |events| > 0 {
      GatedRunKeepsCount(Apply(s, agentId, events[0]), agentId, events[1..]);
    }
  }

  /**
   Starting from the initial state, if upvotes are only clicked while the
   button is enabled, the counter never exceeds one.
   */
  lemma GatedRunCountsAtMostOne(agentId: string, events: seq<Event>)
    requires Gated(Initial(), agentId, events)
    ensures Run(Initial(), agentId, events).upvotes <= 1
  {
    GatedRunKeepsCount(Initial(), agentId, events);
  }

  /**
   Along any run the counter never falls, the flag never reverts, and
   earlier comments stay in place at the front of the list.
   */
  lemma {:induction false} RunIsMonotone(s: State, agentId: string, events: seq<Event>)
    ensures Run(s, agentId, events).upvotes >= s.upvotes
    ensures s.hasUpvoted ==> Run(s, agentId, events).hasUpvoted
    ensures |Run(s, agentId, events).comments| >= |s.comments|
    ensures Run(s, agentId, events).comments[..|s.comments|] == s.comments
    decreases |events|
  {
    if |events| > 0 {
      var t := Apply(s, agentId, events[0]);
      assert t.comments[..|s.comments|] == s.comments;
      RunIsMonotone(t, agentId, events[1..]);
      var u := Run(t, agentId, events[1..]);
      assert u.comments[..|s.comments|] == u.comments[..|t.comments|][..|s.comments|];
    }
  }
}

=== FILE: identity.dfy ===
/** The signed-in user as the authentication client reports it. */
module Identity {
  import opened Wrappers

  /**
   The fields of the session user the core reads: its id, its email (which
   may be missing) and the email recorded in its metadata (missing when the
   metadata or its email field is).
   */
  datatype User = User(id: string, email: Option<string>, metadataEmail: Option<string>)
}

=== FILE: ordering.dfy ===
/**
 The default ordering of `Array.prototype.sort` on strings, taken here as
 lexicographic code-point order, an insertion sort under it, and the de-duplication
 performed by building a `Set`.
 */
module Ordering {

  /** `a` is lexicographically at most `b`, comparing characters by code. */
  predicate LessEq(a: string, b: string)
    ensures a <= b ==> LessEq(a, b)
    ensures |a| > 0 && |b| > 0 && a[0] != b[0] ==> (LessEq(a, b) <==> a[0] < b[0])
    decreases |a|
  {
    |a| == 0 || (|b| > 0 && (a[0] < b[0] || (a[0] == b[0] && LessEq(a[1..], b[1..]))))
  }

  predicate Less(a: string, b: string) {
    LessEq(a, b) && a != b
  }

  lemma {:induction false} LessEqTotal(a: string, b: string)
    ensures LessEq(a, b) || LessEq(b, a)
    decreases |a|
  {
    if |a| > 0 && |b| > 0 && a[0] == b[0] {
      LessEqTotal(a[1..], b[1..]);
    }
  }

  lemma {:induction false} LessEqAntisymmetric(a: string, b: string)
    requires LessEq(a, b) && LessEq(b, a)
    ensures a == b
    decreases |a|
  {
    if |a| > 0 {
      LessEqAntisymmetric(a[1..], b[1..]);
      assert a == [a[0]] + a[1..] && b == [b[0]] + b[1..];
    }
  }

  /** Consecutive elements are in order. */
  predicate Sorted(s: seq<string>) {
    forall i :: 0 < i < |s| ==> LessEq(s[i - 1], s[i])
  }

  /** Consecutive elements are in strictly increasing order. */
  predicate StrictlySorted(s: seq<string>) {
    forall i :: 0 < i < |s| ==> Less(s[i - 1], s[i])
  }

  /** Every value occurs at most once. */
  ghost predicate NoDuplicates(s: seq<string>) {
    forall x :: multiset(s)[x] <= 1
  }

  /** Places `x` before the first element it does not exceed. */
  function Insert(x: string, s: seq<string>): (r: seq<string>)
    requires Sorted(s)
    ensures Sorted(r)
    ensures multiset(r) == multiset(s) + multiset{x}
    ensures |s| > 0 ==> r[0] == x || r[0] == s[0]
    ensures |s| == 0 ==> r[0] == x
  {
    if |s| == 0 || LessEq(x, s[0]) then [x] + s
    else
      LessEqTotal(x, s[0]);
      assert s == [s[0]] + s[1..];
      [s[0]] + Insert(x, s[1..])
  }

  /** `sort()` with the default comparator, as an insertion sort. */
  function Sort(s: seq<string>): (r: seq<string>)
    ensures Sorted(r)
    ensures multiset(r) == multiset(s)
  {
    if |s| == 0 then []
    else
      assert s == [s[0]] + s[1..];
      Insert(s[0], Sort(s[1..]))
  }

  /**
   `Array.from(new Set(s))`: the same values, each once. The order the set
   keeps is not stated, since the sort that follows does not depend on it.
   */
  function Dedup(s: seq<string>): (r: seq<string>)
    ensures NoDuplicates(r)
    ensures forall x :: x in r <==> x in s
  {
    if |s| == 0 then []
    else
      var d := Dedup(s[..|s| - 1]);
      var last := s[|s| - 1];
      assert s == s[..|s| - 1] + [last];
      if last in d then d else d + [last]
  }

  /** A sorted sequence without duplicates is strictly increasing. */
  lemma SortedDistinctIsStrict(s: seq<string>)
    requires Sorted(s) && NoDuplicates(s)
    ensures StrictlySorted(s)
  {
    forall i | 0 < i < |s| ensures s[i - 1] != s[i] {
      AdjacentCount(s, i);
    }
  }

  lemma AdjacentCount(s: seq<string>, i: int)
    requires 0 < i < |s|
    ensures multiset(s)[s[i - 1]] >= if s[i - 1] == s[i] then 2 else 1
  {
    assert s == s[..i - 1] + [s[i - 1], s[i]] + s[i + 1..];
  }

  lemma {:induction false} LessEqTransitive(a: string, b: string, c: string)
    requires LessEq(a, b) && LessEq(b, c)
    ensures LessEq(a, c)
    decreases |a|
  {
    if |a| > 0 && a[0] == b[0] && b[0] == c[0] {
      LessEqTransitive(a[1..], b[1..], c[1..]);
    }
  }

  /** The head of a strictly increasing sequence is below every later element. */
  lemma {:induction false} StrictHeadIsLeast(s: seq<string>, j: int)
    requires StrictlySorted(s) && 0 < j < |s|
    ensures Less(s[0], s[j])
  {
    if j > 1 {
      StrictHeadIsLeast(s, j - 1);
      LessEqTransitive(s[0], s[j - 1], s[j]);
      if s[0] == s[j] {
        LessEqAntisymmetric(s[j - 1], s[j]);
      }
    }
  }

  lemma NothingInIsEmpty(s: seq<string>)
    ensures (forall x :: x !in s) <==> |s| == 0
  {
    if |s| > 0 {
      assert s[0] in s;
    }
  }

  /**
   A strictly increasing sequence is determined by its elements: sorting
   a set of strings has exactly one outcome.
   */
  lemma {:induction false} StrictlySortedUnique(a: seq<string>, b: seq<string>)
    requires StrictlySorted(a) && StrictlySorted(b)
    requires forall x :: x in a <==> x in b
    ensures a == b
  {
    if |a| == 0 || |b| == 0 {
      NothingInIsEmpty(a);
      NothingInIsEmpty(b);
    } else {
      assert a[0] == b[0] by {
        assert a[0] in b && b[0] in a;
        var i :| 0 <= i < |b| && b[i] == a[0];
        var j :| 0 <= j < |a| && a[j] == b[0];
        if i > 0 { StrictHeadIsLeast(b, i); }
        if j > 0 { StrictHeadIsLeast(a, j); }
        if i > 0 && j > 0 {
          LessEqAntisymmetric(a[0], b[0]);
        }
      }
      forall x ensures x in a[1..] <==> x in b[1..] {
        if x in a[1..] {
          var k :| 1 <= k < |a| && a[k] == x;
          StrictHeadIsLeast(a, k);
          assert x in b;
        }
        if x in b[1..] {
          var k :| 1 <= k < |b| && b[k] == x;
          StrictHeadIsLeast(b, k);
          assert x in a;
        }
      }
      StrictlySortedUnique(a[1..], b[1..]);
      assert a == [a[0]] + a[1..] && b == [b[0]] + b[1..];
    }
  }
}

=== FILE: routing.dfy ===
/**
 Slug routing between the directory and the details page: the slug built
 from an agent's name, the link to its details page, the lookup of a route
 parameter back to an agent, and the key its feedback is stored under.
 */
module Routing {
  import opened Wrappers
  import opened Text
  import opened Agents

  /** `replace(/\s+/g, "-")`: every maximal run of whitespace becomes one `-`. */
  function DashRuns(s: string): (r: string)
    ensures HasNoSpace(r)
    ensures |r| <= |s|
    ensures |r| == 0 <==> |s| == 0
    ensures |s| > 0 && !IsSpace(s[0]) ==> r[0] == s[0]
    ensures IsLowerCase(s) ==> IsLowerCase(r)
  {
    if |s| == 0 then []
    else if IsSpace(s[0]) then
      var rest := TrimStart(s);
      assert rest == s[|s| - |rest|..];
      "-" + DashRuns(rest)
    else [s[0]] + DashRuns(s[1..])
  }

  /** `slugify`: lower-case the name, then turn whitespace runs into dashes. */
  function Slugify(name: string): (r: string)
    ensures IsLowerCase(r) && HasNoSpace(r)
    ensures |r| <= |name|
  {
    ToLowerFixesLowerCase(name);
    DashRuns(ToLower(name))
  }

  /**
   A slug is lower-case and whitespace-free, empty exactly for an empty
   name, and starts with the lower-cased first letter of a name that does
   not start with whitespace.
   */
  lemma SlugShape(name: string)
    ensures IsLowerCase(Slugify(name)) && HasNoSpace(Slugify(name))
    ensures |Slugify(name)| == 0 <==> |name| == 0
    ensures |name| > 0 && !IsSpace(name[0]) ==> Slugify(name)[0] == ToLowerChar(name[0])
  {
    ToLowerFixesLowerCase(name);
    if |name| > 0 {
      assert ToLower(name)[0] == ToLowerChar(name[0]);
      assert IsSpace(name[0]) <==> IsSpace(ToLowerChar(name[0]));
    }
  }

  /** Whitespace-free text passes through the dash rewrite unchanged. */
  lemma {:induction false} DashRunsFixesSpaceless(s: string)
    requires HasNoSpace(s)
    ensures DashRuns(s) == s
  {
    if |s| > 0 {
      DashRunsFixesSpaceless(s[1..]);
      assert s == [s[0]] + s[1..];
    }
  }

  /**
   A non-space prefix, a whitespace run and the text after it: the prefix
   is kept, the run becomes one `-`, and the rest is rewritten the same
   way. With `DashRunsFixesSpaceless` this fixes the rewrite on every input.
   */
  lemma {:induction false} DashRunsConcat(a: string, w: string, b: string)
    requires HasNoSpace(a) && |w| > 0 && AllSpace(w) && (|b| == 0 || !IsSpace(b[0]))
    ensures DashRuns(a + w + b) == a + "-" + DashRuns(b)
  {
    if |a| == 0 {
      assert a + w + b == w + b;
      DashRunsLeadingRun(w, b);
    } else {
      var t := a[1..] + w + b;
      var d := DashRuns(b);
      SplitHead(a, w, b);
      SplitHead(a, "-", d);
      DashRunsKeepsHead(a[0], t);
      DashRunsConcat(a[1..], w, b);
      calc {
        DashRuns(a + w + b);
        DashRuns([a[0]] + t);
        [a[0]] + DashRuns(t);
        [a[0]] + (a[1..] + "-" + d);
        a + "-" + d;
      }
    }
  }

  /** Splitting the first character off a non-empty prefix. */
  lemma SplitHead(a: string, x: string, y: string)
    requires |a| > 0
    ensures a + x + y == [a[0]] + (a[1..] + x + y)
  {
    assert a == [a[0]] + a[1..];
  }

  /** A leading whitespace run becomes one `-`. */
  lemma DashRunsLeadingRun(w: string, b: string)
    requires |w| > 0 && AllSpace(w) && (|b| == 0 || !IsSpace(b[0]))
    ensures DashRuns(w + b) == "-" + DashRuns(b)
  {
    TrimStartSkipsRun(w, b);
    assert (w + b)[0] == w[0];
  }

  /** A leading non-space character is kept. */
  lemma DashRunsKeepsHead(c: char, t: string)
    requires !IsSpace(c)
    ensures DashRuns([c] + t) == [c] + DashRuns(t)
  {
    assert ([c] + t)[0] == c && ([c] + t)[1..] == t;
  }

  /** A name without whitespace is only lower-cased. */
  lemma SlugifySpaceless(name: string)
    requires HasNoSpace(name)
    ensures Slugify(name) == ToLower(name)
  {
    ToLowerKeepsSpaces(name);
    DashRunsFixesSpaceless(ToLower(name));
  }

  /**
   `slugify` on a name split at its first whitespace run: the lower-cased
   prefix, one `-`, then the slug of the rest.
   */
  lemma SlugifyRun(a: string, w: string, b: string)
    requires HasNoSpace(a) && |w| > 0 && AllSpace(w) && (|b| == 0 || !IsSpace(b[0]))
    ensures Slugify(a + w + b) == ToLower(a) + "-" + Slugify(b)
  {
    ToLowerConcat(a + w, b);
    ToLowerConcat(a, w);
    var la, lw, lb := ToLower(a), ToLower(w), ToLower(b);
    ToLowerKeepsSpaces(a);
    ToLowerKeepsSpaces(w);
    ToLowerKeepsSpaces(b);
    DashRunsConcat(la, lw, lb);
  }

  /** Slugifying a slug changes nothing. */
  lemma SlugifyIdempotent(name: string)
    ensures Slugify(Slugify(name)) == Slugify(name)
  {
    var slug := Slugify(name);
    SlugShape(name);
    ToLowerFixesLowerCase(slug);
    DashRunsFixesSpaceless(slug);
  }

  /** No agent before position `n` has the slug `key`. */
  predicate NoSlugBefore(agents: seq<Agent>, key: string, n: int)
    requires n <= |agents|
  {
    forall j :: 0 <= j < n ==> Slugify(agents[j].name) != key
  }

  /** Agent `i` is the first whose slug equals `key`. */
  predicate IsFirstMatch(agents: seq<Agent>, key: string, i: int) {
    && 0 <= i < |agents|
    && Slugify(agents[i].name) == key
    && NoSlugBefore(agents, key, i)
  }

  /** The agents' slugs, in listing order. */
  function Slugs(agents: seq<Agent>): (r: seq<string>)
    ensures |r| == |agents|
    ensures forall i :: 0 <= i < |agents| ==> r[i] == Slugify(agents[i].name)
  {
    seq(|agents|, i requires 0 <= i < |agents| => Slugify(agents[i].name))
  }

  /**
   `find` from position `k` on, as an index: the first position holding
   `key`, or nothing when no position does.
   */
  function FindFrom(keys: seq<string>, key: string, k: nat): (r: Option<nat>)
    requires k <= |keys|
    requires forall j :: 0 <= j < k ==> keys[j] != key
    ensures r.Some? ==> r.value < |keys| && keys[r.value] == key
    ensures r.Some? ==> forall j :: 0 <= j < r.value ==> keys[j] != key
    ensures r.None? <==> forall j :: 0 <= j < |keys| ==> keys[j] != key
    decreases |keys| - k
  {
    if k == |keys| then None
    else if keys[k] == key then Some(k)
    else FindFrom(keys, key, k + 1)
  }

  /**
   `getAgentByName`: nothing for an absent or empty parameter; otherwise
   the first agent whose slug equals the lower-cased parameter.
   */
  function GetAgentByName(agents: seq<Agent>, name: Option<string>): (r: Option<Agent>)
    ensures name.None? || name.value == "" ==> r.None?
    ensures r.Some? ==> exists i :: IsFirstMatch(agents, ToLower(name.value), i) && agents[i] == r.value
    ensures r.None? <==> || name.None? || name.value == ""
                         || NoSlugBefore(agents, ToLower(name.value), |agents|)
  {
    if name.None? || name.value == "" then None
    else
      var slugs := Slugs(agents);
      match FindFrom(slugs, ToLower(name.value), 0)
      case None => None
      case Some(i) =>
        assert IsFirstMatch(agents, ToLower(name.value), i);
        Some(agents[i])
  }

  /** The lookup ignores the case of the route parameter. */
  lemma LookupIgnoresCase(agents: seq<Agent>, n: string)
    ensures GetAgentByName(agents, Some(n)) == GetAgentByName(agents, Some(ToLower(n)))
  {
    ToLowerIdempotent(n);
  }

  /** No two listed agents share a slug. */
  predicate DistinctSlugs(agents: seq<Agent>) {
    forall i, j :: 0 <= i < j < |agents| ==> Slugify(agents[i].name) != Slugify(agents[j].name)
  }

  /**
   Resolving an agent's own slug yields that agent, provided slugs are
   distinct and its name is not empty.
   */
  lemma SlugRoundTrip(agents: seq<Agent>, i: nat)
    requires DistinctSlugs(agents)
    requires i < |agents| && agents[i].name != ""
    ensures GetAgentByName(agents, Some(Slugify(agents[i].name))) == Some(agents[i])
  {
    var slug := Slugify(agents[i].name);
    SlugShape(agents[i].name);
    ToLowerFixesLowerCase(slug);
    var r := GetAgentByName(agents, Some(slug));
    var k :| IsFirstMatch(agents, slug, k) && agents[k] == r.value;
    assert k == i;
  }

  const AgentRoute := "/agent/"

  /** The link the directory navigates to for an agent. */
  function AgentPath(a: Agent): (path: string)
    ensures |path| >= |AgentRoute| && path[..|AgentRoute|] == AgentRoute
  {
    AgentRoute + Slugify(a.name)
  }

  /** The parameter carried after the route prefix of an agent's link resolves to that agent. */
  lemma LinkRoundTrip(agents: seq<Agent>, i: nat)
    requires DistinctSlugs(agents)
    requires i < |agents| && agents[i].name != ""
    ensures GetAgentByName(agents, Some(AgentPath(agents[i])[|AgentRoute|..])) == Some(agents[i])
  {
    assert AgentPath(agents[i])[|AgentRoute|..] == Slugify(agents[i].name);
    SlugRoundTrip(agents, i);
  }

  /** The key the details page stores an agent's feedback under. */
  function FeedbackKey(a: Agent): (key: string)
    ensures IsLowerCase(key) && HasNoSpace(key)
    ensures key == "" <==> a.name == ""
  {
    SlugShape(a.name);
    Slugify(a.name)
  }

  /**
   An agent resolved from a route parameter keeps its feedback under the
   lower-cased parameter, whatever case the parameter was written in.
   */
  lemma FeedbackKeyMatchesRoute(agents: seq<Agent>, n: string)
    ensures GetAgentByName(agents, Some(n)).Some? ==>
      FeedbackKey(GetAgentByName(agents, Some(n)).value) == ToLower(n)
  {
    if GetAgentByName(agents, Some(n)).Some? {
      var a := GetAgentByName(agents, Some(n)).value;
      var i :| IsFirstMatch(agents, ToLower(n), i) && agents[i] == a;
    }
  }

  /**
   Names that start with the given initials, none of them whitespace and
   no two the same after lower-casing, have pairwise distinct slugs.
   */
  lemma DistinctInitialsDistinctSlugs(agents: seq<Agent>, initials: string)
    requires |initials| == |agents|
    requires forall i :: 0 <= i < |agents| ==>
      |agents[i].name| > 0 && agents[i].name[0] == initials[i] && !IsSpace(initials[i])
    requires forall i, j :: 0 <= i < j < |initials| ==>
      ToLowerChar(initials[i]) != ToLowerChar(initials[j])
    ensures DistinctSlugs(agents)
  {
    forall i, j | 0 <= i < j < |agents|
      ensures Slugify(agents[i].name) != Slugify(agents[j].name)
    {
      SlugShape(agents[i].name);
      SlugShape(agents[j].name);
    }
  }

  /** The listed agents' names begin G, O, C, V and S. */
  lemma CatalogInitials()
    ensures |Catalog| == 5
    ensures forall i :: 0 <= i < 5 ==> |Catalog[i].name| > 0 && Catalog[i].name[0] == "GOCVS"[i]
  {
  }

  /** The listed agents start with distinct letters, so their slugs differ. */
  lemma CatalogSlugsDistinct()
    ensures DistinctSlugs(Catalog)
  {
    CatalogInitials();
    var initials := "GOCVS";
    assert forall i :: 0 <= i < 5 ==> !IsSpace(initials[i]);
    assert forall i, j :: 0 <= i < j < 5 ==> ToLowerChar(initials[i]) != ToLowerChar(initials[j]);
    DistinctInitialsDistinctSlugs(Catalog, initials);
  }

  /** Every listed agent's link resolves back to it. */
  lemma CatalogLinksResolve(i: nat)
    requires i < |Catalog|
    ensures GetAgentByName(Catalog, Some(AgentPath(Catalog[i])[|AgentRoute|..])) == Some(Catalog[i])
  {
    CatalogSlugsDistinct();
    LinkRoundTrip(Catalog, i);
  }
}

=== FILE: seqs.dfy ===
/** Order-preserving filtering of sequences (`Array.prototype.filter`). */
module Seqs {

  /** `a` can be obtained from `b` by deleting elements. */
  predicate IsSubsequence<T(==,!new)>(a: seq<T>, b: seq<T>)
    decreases |a| + |b|
  {
    || |a| == 0
    || (|b| > 0 && ((a[0] == b[0] && IsSubsequence(a[1..], b[1..])) || IsSubsequence(a, b[1..])))
  }

  /**
   `s.filter(p)`: keeps the elements satisfying `p`, in their order, each
   with its full multiplicity, and nothing else.
   */
  function Filter<T(==,!new)>(s: seq<T>, p: T -> bool): (r: seq<T>)
    ensures forall i :: 0 <= i < |r| ==> p(r[i])
    ensures IsSubsequence(r, s)
    ensures forall x :: p(x) ==> multiset(r)[x] == multiset(s)[x]
  {
    if |s| == 0 then []
    else
      assert s == [s[0]] + s[1..];
      var rest := Filter(s[1..], p);
      if p(s[0]) then [s[0]] + rest else rest
  }

  /** A subsequence never holds an element more often than its source. */
  lemma {:induction false} SubsequenceCounts<T(!new)>(a: seq<T>, b: seq<T>)
    requires IsSubsequence(a, b)
    ensures multiset(a) <= multiset(b)
    decreases |a| + |b|
  {
    if |a| == 0 {
    } else if a[0] == b[0] && IsSubsequence(a[1..], b[1..]) {
      SubsequenceCounts(a[1..], b[1..]);
      assert a == [a[0]] + a[1..];
      assert b == [b[0]] + b[1..];
    } else {
      SubsequenceCounts(a, b[1..]);
      assert b == [b[0]] + b[1..];
    }
  }

  /**
   The contract of `Filter` determines its result: any order-preserving
   selection of the `p`-elements that keeps each of them as often as `s`
   has it is `Filter(s, p)`. Nothing is added, reordered or dropped.
   */
  lemma {:induction false} FilterCharacterized<T(!new)>(s: seq<T>, p: T -> bool, r: seq<T>)
    requires forall i :: 0 <= i < |r| ==> p(r[i])
    requires IsSubsequence(r, s)
    requires forall x :: p(x) ==> multiset(r)[x] == multiset(s)[x]
    ensures r == Filter(s, p)
  {
    if |s| == 0 {
      assert |r| == 0;
    } else {
      var x := s[0];
      assert s == [x] + s[1..];
      if p(x) {
        assert multiset(r)[x] >= 1;
        assert |r| > 0;
        if r[0] == x && IsSubsequence(r[1..], s[1..]) {
        } else {
          assert IsSubsequence(r, s[1..]);
          SubsequenceCounts(r, s[1..]);
          assert false;
        }
        assert r == [x] + r[1..];
        forall y | p(y) ensures multiset(r[1..])[y] == multiset(s[1..])[y] {
          assert multiset(r)[y] == multiset([x])[y] + multiset(r[1..])[y];
        }
        FilterCharacterized(s[1..], p, r[1..]);
      } else {
        assert |r| == 0 || r[0] != x;
        assert IsSubsequence(r, s[1..]);
        forall y | p(y) ensures multiset(r)[y] == multiset(s[1..])[y] {
          assert multiset(s)[y] == multiset([x])[y] + multiset(s[1..])[y];
        }
        FilterCharacterized(s[1..], p, r);
      }
    }
  }

  /** Filtering by a predicate every element meets changes nothing. */
  lemma {:induction false} FilterKeepsAll<T(!new)>(s: seq<T>, p: T -> bool)
    requires forall i :: 0 <= i < |s| ==> p(s[i])
    ensures Filter(s, p) == s
  {
    if |s| > 0 {
      FilterKeepsAll(s[1..], p);
    }
  }

  /** Filtering distributes over concatenation. */
  lemma {:induction false} FilterConcat<T(!new)>(a: seq<T>, b: seq<T>, p: T -> bool)
    ensures Filter(a + b, p) == Filter(a, p) + Filter(b, p)
  {
    if |a| == 0 {
      assert a + b == b;
    } else {
      assert (a + b)[1..] == a[1..] + b;
      FilterConcat(a[1..], b, p);
    }
  }

  /** Deleting elements twice is deleting elements once. */
  lemma {:induction false} SubsequenceTransitive<T(!new)>(a: seq<T>, b: seq<T>, c: seq<T>)
    requires IsSubsequence(a, b) && IsSubsequence(b, c)
    ensures IsSubsequence(a, c)
    decreases |a| + |b| + |c|
  {
    if |a| > 0 {
      if IsSubsequence(b, c[1..]) {
        SubsequenceTransitive(a, b, c[1..]);
      } else if a[0] == b[0] && IsSubsequence(a[1..], b[1..]) {
        SubsequenceTransitive(a[1..], b[1..], c[1..]);
      } else {
        SubsequenceTransitive(a, b[1..], c[1..]);
      }
    }
  }

  lemma {:induction false} SubsequenceReflexive<T(!new)>(s: seq<T>)
    ensures IsSubsequence(s, s)
  {
    if |s| > 0 {
      SubsequenceReflexive(s[1..]);
    }
  }
}

=== FILE: text.dfy ===
/**
 String primitives of the JavaScript standard library that the application
 relies on: ASCII case mapping, the `\s` whitespace class, `includes`,
 `indexOf`, `replace` with a string pattern, and `trim`.
 */
module Text {
  import opened Wrappers

  /** ASCII upper-case letter. */
  predicate IsUpper(c: char) { 'A' <= c <= 'Z' }

  /** ASCII lower-case letter. */
  predicate IsLower(c: char) { 'a' <= c <= 'z' }

  /** `toLowerCase` restricted to ASCII letters. */
  function ToLowerChar(c: char): (r: char)
    ensures !IsUpper(r)
    ensures IsUpper(c) <==> IsLower(r) && r != c
  {
    if IsUpper(c) then (c as int + 32) as char else c
  }

  /** `toUpperCase` restricted to ASCII letters. */
  function ToUpperChar(c: char): (r: char)
    ensures !IsLower(r)
    ensures IsLower(c) <==> IsUpper(r) && r != c
  {
    if IsLower(c) then (c as int - 32) as char else c
  }

  function ToLower(s: string): (r: string)
    ensures |r| == |s|
    ensures forall i :: 0 <= i < |s| ==> r[i] == ToLowerChar(s[i])
  {
    seq(|s|, i requires 0 <= i < |s| => ToLowerChar(s[i]))
  }

  function ToUpper(s: string): (r: string)
    ensures |r| == |s|
    ensures forall i :: 0 <= i < |s| ==> r[i] == ToUpperChar(s[i])
  {
    seq(|s|, i requires 0 <= i < |s| => ToUpperChar(s[i]))
  }

  /** A string without ASCII upper-case letters. */
  predicate IsLowerCase(s: string) {
    forall i :: 0 <= i < |s| ==> !IsUpper(s[i])
  }

  /** Lower-casing yields a lower-case string and changes nothing in one. */
  lemma ToLowerFixesLowerCase(s: string)
    ensures IsLowerCase(ToLower(s))
    ensures IsLowerCase(s) <==> ToLower(s) == s
  {
    if IsLowerCase(s) {
      assert forall i :: 0 <= i < |s| ==> ToLower(s)[i] == s[i];
    }
    if ToLower(s) == s {
      assert forall i :: 0 <= i < |s| ==> !IsUpper(ToLower(s)[i]);
    }
  }

  lemma ToLowerIdempotent(s: string)
    ensures ToLower(ToLower(s)) == ToLower(s)
  {
    ToLowerFixesLowerCase(s);
    ToLowerFixesLowerCase(ToLower(s));
  }

  /** Lower-casing moves no character into or out of the whitespace class. */
  lemma ToLowerKeepsSpaces(s: string)
    ensures forall i :: 0 <= i < |s| ==> (IsSpace(ToLower(s)[i]) <==> IsSpace(s[i]))
    ensures HasNoSpace(s) <==> HasNoSpace(ToLower(s))
    ensures AllSpace(s) <==> AllSpace(ToLower(s))
  {
  }

  /** Lower-casing distributes over concatenation. */
  lemma ToLowerConcat(a: string, b: string)
    ensures ToLower(a + b) == ToLower(a) + ToLower(b)
  {
  }

  /**
   The characters matched by the regular-expression class `\s`, which are
   also the characters `trim` removes: WhiteSpace and LineTerminator of
   ECMAScript, with the Unicode space separators written out.
   */
  predicate IsSpace(c: char) {
    || c == '\t' || c == '\n' || c == '\U{B}' || c == '\U{C}' || c == '\r' || c == ' '
    || c == '\U{A0}' || c == '\U{1680}' || ('\U{2000}' <= c <= '\U{200A}')
    || c == '\U{2028}' || c == '\U{2029}' || c == '\U{202F}' || c == '\U{205F}'
    || c == '\U{3000}' || c == '\U{FEFF}'
  }

  /**
   On ASCII the class is exactly tab, line feed, vertical tab, form feed,
   carriage return and space; no whitespace character is a letter or `-`.
   */
  lemma SpaceClass(c: char)
    ensures c as int < 0x80 ==> (IsSpace(c) <==> c in "\t\n\U{B}\U{C}\r ")
    ensures IsSpace(c) ==> !IsUpper(c) && !IsLower(c) && c != '-'
  {
  }

  predicate HasNoSpace(s: string) {
    forall i :: 0 <= i < |s| ==> !IsSpace(s[i])
  }

  predicate AllSpace(s: string) {
    forall i :: 0 <= i < |s| ==> IsSpace(s[i])
  }

  /** `pat` occurs in `s` starting at index `i`. */
  predicate OccursAt(s: string, pat: string, i: int) {
    0 <= i && i + |pat| <= |s| && s[i..i + |pat|] == pat
  }

  /** The first occurrence of `pat` in `s` at or after `k`. */
  function IndexFrom(s: string, pat: string, k: nat): (r: Option<nat>)
    requires k <= |s| + 1
    ensures r.Some? ==> k <= r.value && OccursAt(s, pat, r.value)
    ensures r.Some? ==> forall j :: k <= j < r.value ==> !OccursAt(s, pat, j)
    ensures r.None? ==> forall j :: k <= j ==> !OccursAt(s, pat, j)
    decreases |s| + 1 - k
  {
    if k + |pat| > |s| then None
    else if s[k..k + |pat|] == pat then Some(k)
    else IndexFrom(s, pat, k + 1)
  }

  /** `s.indexOf(pat)`, with -1 rendered as `None`. */
  function IndexOf(s: string, pat: string): (r: Option<nat>)
    ensures r.Some? ==> OccursAt(s, pat, r.value)
    ensures r.Some? ==> forall j :: 0 <= j < r.value ==> !OccursAt(s, pat, j)
    ensures r.None? <==> forall j :: !OccursAt(s, pat, j)
  {
    IndexFrom(s, pat, 0)
  }

  /** `s.includes(pat)`: some index of `s` carries an occurrence of `pat`. */
  predicate Contains(s: string, pat: string)
    ensures Contains(s, pat) <==> exists i :: OccursAt(s, pat, i)
  {
    IndexOf(s, pat).Some?
  }

  /**
   `s.replace(pat, rep)` with a string (not a regular expression) pattern:
   only the first occurrence is replaced; without one `s` is returned. The
   replacement is inserted literally: the `$$`, `$&`, `` $` `` and `$'`
   patterns JavaScript expands in it are not modelled.
   */
  function ReplaceFirst(s: string, pat: string, rep: string): (r: string)
    ensures !Contains(s, pat) ==> r == s
    ensures Contains(s, pat) ==>
      exists i :: && OccursAt(s, pat, i)
                  && (forall j :: 0 <= j < i ==> !OccursAt(s, pat, j))
                  && r == s[..i] + rep + s[i + |pat|..]
  {
    match IndexOf(s, pat)
    case None => s
    case Some(i) => s[..i] + rep + s[i + |pat|..]
  }

  /** A string that begins with the pattern loses exactly that prefix. */
  lemma ReplaceFirstAtStart(pat: string, p: string)
    ensures ReplaceFirst(pat + p, pat, "") == p
  {
    assert OccursAt(pat + p, pat, 0) by {
      assert (pat + p)[0..|pat|] == pat;
    }
    assert IndexOf(pat + p, pat) == Some(0);
    assert (pat + p)[|pat|..] == p;
  }

  /** A string without the pattern is returned unchanged. */
  lemma ReplaceFirstAbsent(s: string, pat: string, rep: string)
    requires !Contains(s, pat)
    ensures ReplaceFirst(s, pat, rep) == s
  {
  }

  /** `trimStart`: drops the leading whitespace. */
  function TrimStart(s: string): (r: string)
    ensures |r| <= |s| && r == s[|s| - |r|..]
    ensures AllSpace(s[..|s| - |r|])
    ensures |r| > 0 ==> !IsSpace(r[0])
  {
    if |s| > 0 && IsSpace(s[0]) then TrimStart(s[1..]) else s
  }

  /** A whitespace run followed by a non-space (or nothing) is exactly what `trimStart` drops. */
  lemma {:induction false} TrimStartSkipsRun(w: string, b: string)
    requires AllSpace(w) && (|b| == 0 || !IsSpace(b[0]))
    ensures TrimStart(w + b) == b
  {
    if |w| == 0 {
      assert w + b == b;
    } else {
      assert (w + b)[1..] == w[1..] + b;
      TrimStartSkipsRun(w[1..], b);
    }
  }

  /** `trimEnd`: drops the trailing whitespace. */
  function TrimEnd(s: string): (r: string)
    ensures |r| <= |s| && r == s[..|r|]
    ensures AllSpace(s[|r|..])
    ensures |r| > 0 ==> !IsSpace(r[|r| - 1])
  {
    if |s| > 0 && IsSpace(s[|s| - 1]) then
      var r := TrimEnd(s[..|s| - 1]);
      assert s[..|s| - 1][..|r|] == s[..|r|];
      assert s[|r|..] == s[..|s| - 1][|r|..] + [s[|s| - 1]];
      r
    else
      assert s[|s|..] == [];
      s
  }

  /** `trim`: drops whitespace at both ends. */
  function Trim(s: string): (r: string)
    ensures |r| <= |s|
    ensures |r| > 0 ==> !IsSpace(r[0]) && !IsSpace(r[|r| - 1])
  {
    TrimEnd(TrimStart(s))
  }

  /**
   `trim` returns a contiguous slice of `s`, everything it removes is
   whitespace, and the slice neither starts nor ends with whitespace.
   */
  lemma TrimIsSlice(s: string) returns (i: nat, j: nat)
    ensures i <= j <= |s| && Trim(s) == s[i..j]
    ensures AllSpace(s[..i]) && AllSpace(s[j..])
    ensures |Trim(s)| > 0 ==> !IsSpace(Trim(s)[0]) && !IsSpace(Trim(s)[|Trim(s)| - 1])
  {
    var t := TrimStart(s);
    i := |s| - |t|;
    j := i + |TrimEnd(t)|;
    assert s[i..][..|TrimEnd(t)|] == s[i..j];
    assert s[j..] == t[|TrimEnd(t)|..];
  }

  /** A draft is blank for `trim` exactly when it is all whitespace. */
  lemma TrimEmptyIff(s: string)
    ensures Trim(s) == [] <==> AllSpace(s)
  {
    var i, j := TrimIsSlice(s);
    if Trim(s) == [] {
      assert i == j;
      forall k | 0 <= k < |s| ensures IsSpace(s[k]) {
        if k < i { assert s[..i][k] == s[k]; } else { assert s[j..][k - j] == s[k]; }
      }
    }
  }
}

=== FILE: uri.dfy ===
/**
 `encodeURIComponent`: characters outside the unreserved set of section 2.3
 of RFC 3986 (plus `!`, `'`, `(`, `)` and `*`) are written as the
 percent-encoded octets of section 2.1 of RFC 3986, one `%XY` triplet per
 byte of their UTF-8 encoding, with upper-case hexadecimal digits.
 */
module Uri {

  type Byte = x: int | 0 <= x < 256

  predicate IsAsciiLetter(c: char) { 'A' <= c <= 'Z' || 'a' <= c <= 'z' }

  predicate IsDigit(c: char) { '0' <= c <= '9' }

  /** The characters `encodeURIComponent` leaves as they are. */
  predicate IsUnescaped(c: char)
    ensures IsUnescaped(c) ==> c as int < 0x80 && c !in "%/?#&= "
    ensures 'a' <= c <= 'z' || 'A' <= c <= 'Z' || '0' <= c <= '9' ==> IsUnescaped(c)
  {
    || IsAsciiLetter(c) || IsDigit(c)
    || c == '-' || c == '.' || c == '_' || c == '~'
    || c == '!' || c == '\'' || c == '(' || c == ')' || c == '*'
  }

  predicate IsHexDigit(c: char) { IsDigit(c) || 'A' <= c <= 'F' }

  /** A character that can appear in the output of the encoder. */
  predicate IsEncodedChar(c: char) { IsUnescaped(c) || c == '%' || IsHexDigit(c) }

  const HexDigits := "0123456789ABCDEF"

  function HexDigit(d: int): (c: char)
    requires 0 <= d < 16
    ensures IsHexDigit(c)
  {
    HexDigits[d]
  }

  function HexValue(c: char): (d: int)
    requires IsHexDigit(c)
    ensures 0 <= d < 16
  {
    if IsDigit(c) then c as int - '0' as int else c as int - 'A' as int + 10
  }

  lemma HexValueOfDigit(d: int)
    requires 0 <= d < 16
    ensures HexValue(HexDigit(d)) == d
  {
  }

  /** The UTF-8 encoding of one Unicode scalar value. */
  function Utf8(c: char): (bytes: seq<Byte>)
    ensures 1 <= |bytes| <= 4
    ensures (c as int < 0x80) <==> |bytes| == 1
    ensures c as int < 0x80 ==> bytes == [c as int]
    ensures |bytes| == 2 <==> 0x80 <= c as int < 0x800
    ensures |bytes| == 3 <==> 0x800 <= c as int < 0x10000
    ensures |bytes| == 4 <==> 0x10000 <= c as int
    ensures |bytes| == 2 ==> 0xC2 <= bytes[0] < 0xE0
    ensures |bytes| == 3 ==> 0xE0 <= bytes[0] < 0xF0
    ensures |bytes| == 4 ==> 0xF0 <= bytes[0] < 0xF5
    ensures forall k :: 1 <= k < |bytes| ==> 0x80 <= bytes[k] < 0xC0
  {
    var n := c as int;
    if n < 0x80 then [n]
    else if n < 0x800 then [0xC0 + n / 0x40, 0x80 + n % 0x40]
    else if n < 0x10000 then [0xE0 + n / 0x1000, 0x80 + (n / 0x40) % 0x40, 0x80 + n % 0x40]
    else [0xF0 + n / 0x40000, 0x80 + (n / 0x1000) % 0x40, 0x80 + (n / 0x40) % 0x40, 0x80 + n % 0x40]
  }

  /** The code point a one- to four-byte UTF-8 sequence spells. */
  function Utf8Value(bytes: seq<Byte>): int
    requires 1 <= |bytes| <= 4
  {
    var lead: int := bytes[0];
    if |bytes| == 1 then lead
    else if |bytes| == 2 then (lead - 0xC0) * 0x40 + Payload(bytes[1])
    else if |bytes| == 3 then
      (lead - 0xE0) * 0x1000 + Payload(bytes[1]) * 0x40 + Payload(bytes[2])
    else
      (lead - 0xF0) * 0x40000 + Payload(bytes[1]) * 0x1000
        + Payload(bytes[2]) * 0x40 + Payload(bytes[3])
  }

  /** The six bits a continuation byte carries. */
  function Payload(b: Byte): int
  {
    b as int - 0x80
  }

  /** Dropping six bits twice drops twelve. */
  lemma DivideTwice(n: nat)
    ensures n / 0x1000 == (n / 0x40) / 0x40
  {
    var q, r := n / 0x40, n % 0x40;
    var p, t := q / 0x40, q % 0x40;
    assert n == 0x1000 * p + (0x40 * t + r);
  }

  /** Dropping twelve bits and then six drops eighteen. */
  lemma DivideThrice(n: nat)
    ensures n / 0x40000 == (n / 0x1000) / 0x40
  {
    var q, r := n / 0x1000, n % 0x1000;
    var p, t := q / 0x40, q % 0x40;
    assert n == 0x40000 * p + (0x1000 * t + r);
  }

  /** Reading the bytes back gives the character's code point. */
  lemma Utf8Decodes(c: char)
    ensures Utf8Value(Utf8(c)) == c as int
  {
    var n := c as int;
    if 0x800 <= n < 0x10000 {
      DivideTwice(n);
    } else if 0x10000 <= n {
      DivideTwice(n);
      DivideThrice(n);
      DivideTwice(n / 0x40);
    }
  }

  /** The UTF-8 encoding of a string. */
  function Utf8String(s: string): (bytes: seq<Byte>)
  {
    if |s| == 0 then [] else Utf8(s[0]) + Utf8String(s[1..])
  }

  /** One `%XY` triplet. */
  function Escape(b: Byte): (t: string)
    ensures |t| == 3 && t[0] == '%' && IsHexDigit(t[1]) && IsHexDigit(t[2])
  {
    ['%', HexDigit(b / 16), HexDigit(b % 16)]
  }

  /** The triplets of a byte string, one after another. */
  function EscapeAll(bytes: seq<Byte>): (t: string)
    ensures |t| == 3 * |bytes|
    ensures forall i :: 0 <= i < |t| ==> t[i] == '%' || IsHexDigit(t[i])
    ensures forall i :: 0 <= i < |t| ==> IsEncodedChar(t[i])
  {
    if |bytes| == 0 then [] else Escape(bytes[0]) + EscapeAll(bytes[1..])
  }

  /**
   One character: an unreserved one stays as it is; any other becomes the
   triplets of its UTF-8 bytes, which decode back to exactly those bytes.
   */
  function EncodeChar(c: char): (t: string)
    ensures forall i :: 0 <= i < |t| ==> IsEncodedChar(t[i])
    ensures IsUnescaped(c) <==> t == [c]
    ensures !IsUnescaped(c) ==> |t| == 3 * |Utf8(c)|
    ensures !IsUnescaped(c) ==> forall i :: 0 <= i < |t| ==> t[i] == '%' || IsHexDigit(t[i])
    ensures !IsUnescaped(c) ==> PercentDecode(t) == Utf8(c)
  {
    if IsUnescaped(c) then [c]
    else
      var t := EscapeAll(Utf8(c));
      DecodeEscapes(Utf8(c), "");
      assert t + "" == t;
      t
  }

  /**
   `encodeURIComponent(s)`: every output character is unreserved, `%` or a
   hexadecimal digit, so none of the delimiters `/ ? # & =` can appear.
   */
  function Encode(s: string): (t: string)
    ensures forall i :: 0 <= i < |t| ==> IsEncodedChar(t[i])
    ensures forall i :: 0 <= i < |t| ==> t[i] !in "/?#&="
    ensures |t| >= |s|
  {
    if |s| == 0 then [] else EncodeChar(s[0]) + Encode(s[1..])
  }

  /** The encoding works character by character: it distributes over concatenation. */
  lemma {:induction false} EncodeConcat(a: string, b: string)
    ensures Encode(a + b) == Encode(a) + Encode(b)
  {
    if |a| == 0 {
      assert a + b == b;
    } else {
      assert (a + b)[0] == a[0] && (a + b)[1..] == a[1..] + b;
      EncodeConcat(a[1..], b);
    }
  }

  /** Text made of unreserved characters is its own encoding, and nothing else is. */
  lemma {:induction false} EncodeFixesExactlyUnescaped(s: string)
    ensures Encode(s) == s <==> forall i :: 0 <= i < |s| ==> IsUnescaped(s[i])
  {
    if |s| > 0 {
      EncodeFixesExactlyUnescaped(s[1..]);
      var head := EncodeChar(s[0]);
      if IsUnescaped(s[0]) {
        assert Encode(s) == [s[0]] + Encode(s[1..]);
        assert s == [s[0]] + s[1..];
        if Encode(s) == s {
          assert Encode(s[1..]) == Encode(s)[1..];
        }
      } else {
        assert |head| >= 3;
        assert |Encode(s)| > |s|;
      }
    }
  }

  /**
   A byte-level decoder for this encoder's output: an upper-case `%XY`
   triplet is the byte it names and any other character stands for its own
   code. It is narrower than `decodeURIComponent`, which also reads
   lower-case hexadecimal digits and rejects a malformed `%`; the encoder
   produces neither.
   */
  function PercentDecode(t: string): (bytes: seq<int>)
  {
    if |t| == 0 then []
    else if |t| >= 3 && t[0] == '%' && IsHexDigit(t[1]) && IsHexDigit(t[2]) then
      [HexValue(t[1]) * 16 + HexValue(t[2])] + PercentDecode(t[3..])
    else [t[0] as int] + PercentDecode(t[1..])
  }

  /** One `%XY` triplet decodes to the byte it was made from. */
  lemma DecodeEscapeHead(b: Byte, u: string)
    ensures PercentDecode(Escape(b) + u) == [b] + PercentDecode(u)
  {
    var t := Escape(b) + u;
    HexValueOfDigit(b / 16);
    HexValueOfDigit(b % 16);
    assert t[..3] == Escape(b) && t[3..] == u;
  }

  lemma PrependHead(xs: seq<int>, d: seq<int>)
    requires |xs| > 0
    ensures [xs[0]] + (xs[1..] + d) == xs + d
  {
    assert xs == [xs[0]] + xs[1..];
  }

  lemma {:induction false} DecodeEscapes(bytes: seq<Byte>, rest: string)
    ensures PercentDecode(EscapeAll(bytes) + rest) == bytes + PercentDecode(rest)
  {
    if |bytes| > 0 {
      var u := EscapeAll(bytes[1..]) + rest;
      assert EscapeAll(bytes) + rest == Escape(bytes[0]) + u;
      DecodeEscapeHead(bytes[0], u);
      DecodeEscapes(bytes[1..], rest);
      calc {
        PercentDecode(EscapeAll(bytes) + rest);
        PercentDecode(Escape(bytes[0]) + u);
        [bytes[0]] + PercentDecode(u);
        [bytes[0]] + (bytes[1..] + PercentDecode(rest));
        { PrependHead(bytes, PercentDecode(rest)); }
        bytes + PercentDecode(rest);
      }
    } else {
      assert EscapeAll(bytes) + rest == rest;
    }
  }

  /** Decoding the encoder's output yields exactly the UTF-8 bytes of the input. */
  lemma {:induction false} DecodeEncode(s: string)
    ensures PercentDecode(Encode(s)) == Utf8String(s)
  {
    if |s| > 0 {
      var c := s[0];
      DecodeEncode(s[1..]);
      if IsUnescaped(c) {
        assert Encode(s) == [c] + Encode(s[1..]);
        assert c != '%';
      } else {
        DecodeEscapes(Utf8(c), Encode(s[1..]));
      }
    }
  }
}

=== FILE: usermenu.dfy ===
/** The avatar of the user menu: its fallback initials and its alternative text. */
module UserMenu {
  import opened Wrappers
  import opened Text
  import opened Identity

  /** JavaScript truthiness of an optional string: present and not empty. */
  predicate Truthy(o: Option<string>) {
    o.Some? && o.value != ""
  }

  /** `s?.[0]?.toUpperCase()`: the upper-cased first character, if there is one. */
  function FirstUpper(o: Option<string>): (r: Option<string>)
    ensures r.Some? <==> Truthy(o)
    ensures r.Some? ==> |r.value| == 1 && r.value[0] == ToUpperChar(o.value[0])
  {
    if Truthy(o) then Some([ToUpperChar(o.value[0])]) else None
  }

  /** `s.slice(0, n)`: the first `n` characters, or all of a shorter string. */
  function Prefix(s: string, n: nat): (r: string)
    ensures |r| == if |s| < n then |s| else n
    ensures r == s[..|r|]
  {
    if |s| < n then s else s[..n]
  }

  /**
   `initials`: the email's first letter, else the metadata email's first
   letter, else the first two characters of the id, upper-cased; each
   `||` falls through on a missing or empty value.
   */
  function Initials(u: User): (r: string)
    ensures Truthy(u.email) ==> r == [ToUpperChar(u.email.value[0])]
    ensures !Truthy(u.email) && Truthy(u.metadataEmail) ==> r == [ToUpperChar(u.metadataEmail.value[0])]
    ensures !Truthy(u.email) && !Truthy(u.metadataEmail) ==>
      |r| == (if |u.id| < 2 then |u.id| else 2)
      && forall i :: 0 <= i < |r| ==> r[i] == ToUpperChar(u.id[i])
    ensures |r| <= 2
    ensures forall i :: 0 <= i < |r| ==> !IsLower(r[i])
  {
    var fromEmail := FirstUpper(u.email);
    var fromMetadata := FirstUpper(u.metadataEmail);
    if Truthy(fromEmail) then fromEmail.value
    else if Truthy(fromMetadata) then fromMetadata.value
    else ToUpper(Prefix(u.id, 2))
  }

  /** `user.email ?? "User"`: only a missing email falls back, an empty one does not. */
  function AvatarAlt(u: User): (r: string)
    ensures u.email.Some? ==> r == u.email.value
    ensures u.email.None? ==> r == "User"
  {
    u.email.GetOr("User")
  }

  /** What the menu's avatar shows. */
  datatype Avatar = Avatar(initials: string, alt: string)

  /** The menu renders nothing without a user, and computes no initials. */
  function MenuAvatar(user: Option<User>): (r: Option<Avatar>)
    ensures r.None? <==> user.None?
    ensures r.Some? ==> r.value.initials == Initials(user.value) && r.value.alt == AvatarAlt(user.value)
  {
    match user
    case None => None
    case Some(u) => Some(Avatar(Initials(u), AvatarAlt(u)))
  }

  /**
   The two fallbacks disagree on an empty email: the alternative text is
   the empty email while the initials come from the metadata email or the id.
   */
  lemma EmptyEmailFallbacksDiffer(u: User)
    requires u.email == Some("")
    ensures AvatarAlt(u) == ""
    ensures Initials(u) == Initials(u.(email := None))
    ensures Initials(u) != "" <==> Truthy(u.metadataEmail) || u.id != ""
  {
  }
}

=== FILE: wrappers.dfy ===
/** Optional values: JavaScript's `undefined` / `null` alongside a present value. */
module Wrappers {

  datatype Option<+T> = None | Some(value: T) {

    /** The value if present, otherwise `default` (the `x ?? default` operator). */
    function GetOr(default: T): T {
      match this
      case Some(v) => v
      case None => default
    }
  }
}
